=== FILE: README.md ===
# InSpoet limerick generator — a Dafny model

InSpoet writes a limerick "in the style of" a poet. Its `InspiringSet` class does four things:

- It tags the poet's poems and finds one significant noun per poem by TF-IDF.
- It picks one of those nouns at random as the theme.
- It expands the theme into related nouns, verbs and adjectives through GloVe similarity and a part-of-speech filter, with hard-coded fallback lists.
- It fixes number and tense, looks up rhymes, and fills a fixed five-line AABBA template titled "Something about {theme}".

A poem is scored by summing grammar errors per line and by averaging the nonzero per-line polarities.

This project models that deterministic logic as pure Dafny functions. The NLP libraries are parameters whose outputs are uninterpreted:

- spaCy becomes a `Tagger` giving tokens with a tag and a lemma.
- GloVe becomes an `Embedding` giving vocabulary membership and a similarity ranking.
- `pronouncing`, `inflect`, LanguageTool and TextBlob are per-word or per-line functions.
- The TF-IDF matrix is a given `ScoreMatrix`.
- Every `random.choice` reads one caller-supplied draw `k` and takes the element at `k` modulo the list length. Every draw is then in range, and every index can be reached.

Where Python raises, the model returns `Err`. A poem without a score row is an `IndexError` at line 159. An empty theme pool is an `IndexError` at line 213.

Modules, one per component:

- `Results`: `Option` and `Result`.
- `Text`: the `str` predicates.
- `Providers`: the external inputs and `Pick`.
- `Poems`: the `Poem` record.
- `Morphology`: `conjugate` and `handle_plurality`.
- `OrderedDict`: Python dict semantics in insertion order.
- `Significance`: noun documents, the argmax/`"None"` selection and the theme pool.
- `Expansion`: similar words, the POS filter, fallbacks and rhymes.
- `Limerick`: slot filling, the template and the whole generator.
- `Scoring`: the grammar and sentiment scores.

Behaviour of the code worth noting, which the model keeps as written:

- **One TF-IDF document per noun-bearing line, not per poem.** Poem `i` still reads row `i`, so it can get the noun of another poem's line. `Significance.DocumentsArePerLine` shows this on a two-poem corpus. A corpus with fewer noun-bearing lines than poems fails; see `Limerick.TooFewNounLinesFail`. This mismatch is kept as written.
- **The sentinel `"None"` passes the theme filter.** It is alphabetic and has no space, so it can be chosen as the theme.
- **An out-of-vocabulary theme gives `[theme]` for every part of speech.** That list is not empty, so no fallback list is used. Every word drawn for a category is then the theme; the verbs are conjugated from it and the noun is singularised from it.
- **One limerick per run.** `generate_limerick` builds a single poem, and the two scores are computed for it separately; nothing combines them or compares candidates.

## Model

| member | source | states |
|---|---|---|
| Morphology.Conjugate | poetry_gen.py:71-100 | Empty tokenisation returns the verb unchanged. Present tense with subject "it" always ends in `s`, irregular forms included. Past of a lemma outside the table ends in `d` and follows the four rules in order: `y` after a non-vowel becomes `ied`, a final `e` takes `d`, a lemma not ending in `ed` takes `ed`, and one ending in `ed` is kept. Any other tense returns the lemma |
| Morphology.ConjugateIrregular | poetry_gen.py:82-88 | For be/go/make in past or present, the result is the table entry (was/is, went/goes, made/makes), whatever the subject |
| Morphology.ConjugatePresent | poetry_gen.py:89-92 | Present of a regular lemma: subject "it" gives lemma+`s`, or the bare lemma if it already ends in `s`. Any other subject gives the lemma |
| Morphology.RegularPresent | poetry_gen.py:89-92 | The result is the lemma or the lemma plus `s`. It gains the `s` exactly when the subject is "it" and the lemma does not end in `s` |
| Morphology.ConjugatePast | poetry_gen.py:93-100 | Past of a regular lemma ends in `d` and keeps all but at most the lemma's last letter. It is at most two letters longer and equals the lemma exactly when the lemma ends in `ed`. Outside the `y` rule, a lemma ending in `e` takes `d` and any other lemma not ending in `ed` takes `ed` |
| Morphology.RegularPast | poetry_gen.py:93-99 | Each of the three suffix rules gives its exact result under its guard, tried in order (`y` to `ied`, `e` plus `d`, otherwise plus `ed`). The result always ends in `d`, is unchanged exactly for lemmas ending in `ed`, and grows by at most two letters |
| Morphology.ConjugatePastY | poetry_gen.py:94-95 | A lemma of length over 1 ending in `y` after a non-lower-case-vowel drops the `y` and takes `ied` |
| Morphology.HandlePlurality | poetry_gen.py:134-140 | Pluralising returns the inflector's plural. Singularising returns the inflector's singular when it is non-empty, and the word itself when the inflector answers `False` or the empty string |
| Significance.NounTexts | poetry_gen.py:128-129 | Every returned word is the text of a token tagged NOUN, and the text of every NOUN token is returned |
| Significance.NounPositions | poetry_gen.py:128-129 | The positions of the NOUN tokens, strictly increasing, each a NOUN token, and every NOUN token's position among them |
| Significance.NounTextsAtPositions | poetry_gen.py:128-129 | The noun list has one word per NOUN token, and its `j`-th word is the text of the `j`-th NOUN token, so nothing is dropped, duplicated or reordered |
| Significance.NounLines | poetry_gen.py:126-131 | A line is kept exactly when it is one of the given lines and its tagging holds a NOUN |
| Significance.NounLinesKeepOrder | poetry_gen.py:126-131 | The kept lines are in reading order |
| Significance.NounLinesKeepRepeats | poetry_gen.py:126-131 | A noun-bearing line that occurs several times, such as a refrain, is kept every time, and a line without nouns never is |
| Significance.GenerateNouns | poetry_gen.py:118-132 | There is exactly one list per noun-bearing line of the whole corpus, in reading order. List `i` is the noun texts of the `i`-th noun-bearing line, and it is never empty |
| Significance.Documents | poetry_gen.py:150 | Document `i` is the space-joined nouns of the `i`-th noun-bearing line, with one document per such line |
| Significance.GenerateNounsKeepAllNouns | poetry_gen.py:122-131 | The concatenated per-line lists are exactly the corpus's noun tokens in reading order |
| Poems.NewPoem | poetry_gen.py:40-44 | A new poem keeps the given title and lines, and both scores start at zero |
| Significance.DocumentsArePerLine | poetry_gen.py:150-159 | For poems A ("the cat", "the mat") and B ("a dog"), the documents are ["cat", "mat", "dog"], so poem B's row 1 is A's second line |
| Significance.FirstMax | poetry_gen.py:162 | `argmax` returns an index holding the maximum, and no earlier index holds it |
| Significance.ThemeOfRow | poetry_gen.py:159-164 | An all-zero row gives "None". Otherwise the result is the feature at the first maximum |
| Significance.ThemeIsNoneIffAllZero | poetry_gen.py:161-164 | When "None" is not a feature, the theme is "None" exactly when the row is all zero |
| Significance.SignificantNouns | poetry_gen.py:143-168 | Succeeds exactly when there is a row for every poem. Otherwise fails at the first missing row. Every value is "None" or a feature |
| Significance.SignificantNounOfPoem | poetry_gen.py:157-166 | The title of poem `i` maps to row `i`'s theme when no later poem repeats the title, so later duplicates overwrite earlier ones |
| Significance.SignificantNounsKeys | poetry_gen.py:157-166 | The dictionary's keys are exactly the poem titles |
| OrderedDict.Put | poetry_gen.py:166 | Assignment appends a new key at the end and keeps an existing key in place. Reading the key back gives the new value |
| OrderedDict.GetPutOther | poetry_gen.py:166 | Assigning one key leaves every other key's value unchanged |
| OrderedDict.GetAssign | poetry_gen.py:157-166 | After the loop of assignments, a key reads as its last assigned value |
| OrderedDict.AssignKeysUnique | poetry_gen.py:157-166 | The built dictionary holds each title once |
| OrderedDict.AssignKeyOrder | poetry_gen.py:157-166 | The built dictionary's keys are exactly the assigned titles, in the order of their first assignment; a later assignment to a title does not move it |
| Text.AlphaHasNoSpace | poetry_gen.py:212 | An alphabetic word never contains a space |
| Significance.ThemePool | poetry_gen.py:211-212 | The pool is the values in their order with the non-theme words left out. A word is in it exactly when it is a value with no space that is alphabetic, and a theme word shared by several values appears once per value. Poems sharing a title share one dictionary entry, so a theme counts once per distinct title |
| Significance.NoneIsThemeWord | poetry_gen.py:211-212 | The sentinel "None" passes the theme filter |
| Significance.CandidateThemes | poetry_gen.py:209-212 | Every pool word is alphabetic and is a feature or "None". The pool exists exactly when every poem has a row |
| Significance.PoolHasPoemTheme | poetry_gen.py:157-212 | When every poem has a row, the theme kept for a title (from the last poem with that title) is in the pool whenever it passes the filter |
| Significance.ChooseTheme | poetry_gen.py:213 | Choosing fails exactly on an empty pool. Otherwise the theme is in the pool, and a draw below the pool's length selects that position |
| Providers.Pick | poetry_gen.py:228-232 | A random choice is always an element of the list, and draw `k < len` selects index `k` |
| Expansion.FilterWordsByPos | poetry_gen.py:187-197 | Returns an order-preserving subsequence. A word is kept exactly when its first token's tag equals `pos`, and a kept word appears as many times as in the input |
| Expansion.MostSimilar | poetry_gen.py:179-181 | The top-`n` words are a prefix of the similarity ranking, at most `n` long |
| Expansion.GenerateSimilar | poetry_gen.py:171-185 | An out-of-vocabulary theme gives `[theme]`. Otherwise the result is a subsequence of the top `n`, at most `n` long. With a `pos`, it holds exactly the top-`n` words with that tag, each as many times as it is ranked |
| Expansion.RelatedWords | poetry_gen.py:215-226 | A non-empty filtered list of similar words is kept as it is, and an empty one is replaced by exactly the fallback list. The result is never empty, and its words come from the fallback list, the theme or the similarity ranking |
| Expansion.OutOfVocabularyTheme | poetry_gen.py:215-226 | An out-of-vocabulary theme is its own noun, verb and adjective list, and no fallback list is used |
| Expansion.FallbackWhenNothingQualifies | poetry_gen.py:219-226 | A known theme with no top-13 neighbour of the tag gets exactly the category's fallback list |
| Expansion.RhymesFor | poetry_gen.py:235-237 | The rhyme list is never empty, and it is the word itself when the rhyme lookup finds nothing |
| Limerick.FillSlots | poetry_gen.py:228-250 | Each adjective comes from the adjective list. The noun is the singular of a related noun. Verb 1 is a present form and verbs 2 and 3 are past forms of related verbs. The A rhymes rhyme with the theme and the B rhyme with the noun |
| Limerick.Render | poetry_gen.py:252-262 | Gives the five template lines exactly, for example line 1 is "There once was a {adj1} {theme}," and line 4 is "They {verb2} like a {adj3} {rhymeB}.". The title is "Something about {theme}" and the scores are zero |
| Limerick.RenderEndings | poetry_gen.py:253-257 | Line 1 ends on the theme and a comma, and lines 2 and 5 end on their A rhymes and a full stop |
| Limerick.TitleRoundTrip | poetry_gen.py:260 | Reading the theme back from a title inverts titling, in both directions |
| Limerick.GenerateLimerick | poetry_gen.py:200-262 | Succeeds exactly when every poem has a row and the pool is non-empty, and otherwise names the error. On success the poem is the rendering of well-filled slots around a pool theme |
| Limerick.SlotDraws | poetry_gen.py:228-250 | Any well-filled slots are what `FillSlots` produces for some draws |
| Limerick.EveryRenderReachable | poetry_gen.py:213-262 | Every rendering of well-filled slots around a pool theme is the result of generation for some draws, so the random source reaches every limerick the template allows |
| Limerick.ThemeWordMakesGenerationSucceed | poetry_gen.py:157-213 | With a row for every poem, if some title's final theme passes the filter, generation succeeds whatever the draws |
| Limerick.GeneratedLimerickShape | poetry_gen.py:252-260 | A generated poem has five lines. Its title names an alphabetic theme that is a feature or "None". Line 1 ends on that theme, and lines 2 and 5 end on one of its rhymes |
| Limerick.TooFewNounLinesFail | poetry_gen.py:150-159 | With one score row per document, fewer noun-bearing lines than poems makes generation fail at the first missing row |
| Scoring.EvaluateGrammar | poetry_gen.py:265-277 | The loop's total equals the sum of per-line error counts, which is a natural number. The poem is returned with only that score changed |
| Scoring.TotalErrorsPerLine | poetry_gen.py:270-274 | The total is zero exactly when every line has zero errors, and it bounds every line's count |
| Scoring.EvaluateSentiment | poetry_gen.py:279-297 | The loop's score is the polarity sum over the count of nonzero lines, or 0 without any. The poem is returned with only the sentiment changed |
| Scoring.PolaritySumBounded | poetry_gen.py:288-293 | With polarities in [-1, 1], the absolute polarity sum is at most the number of nonzero lines |
| Scoring.NeutralPoemScoresZero | poetry_gen.py:295 | With no nonzero line, the score is exactly 0 and nothing is divided |
| Scoring.SentimentInRange | poetry_gen.py:285-295 | With every line's polarity in [-1, 1], the sentiment is in [-1, 1] |

## Left out

- The Flask app and its routes are not modelled. This covers request parsing, the random-author fallback and the `prev_generated.json` log (lines 28-33, 300-394). They are transport and file I/O.
- `generate_inspiring_poems` (lines 103-115) is not modelled because it reads JSON files. The corpus is a given sequence of `Poem`s, and the title and text are assumed present.
- spaCy, GloVe/gensim, `pronouncing`, `inflect`, LanguageTool and TextBlob are foreign libraries. Their answers are uninterpreted function inputs. As a result, the singular→plural→singular round trip is a property of `inflect` and is not stated.
- The TF-IDF computation is not modelled: tokenisation, lower-casing, IDF and L2 normalisation. The score rows and feature names are inputs, and only the argmax/"None" selection is modelled.
- The vectoriser's own `ValueError` on an empty vocabulary is also out. In the model, a corpus with no noun lines fails later, on the missing row or the empty pool.
- Randomness is not modelled. Each `random.choice` reads a caller-supplied draw.
- Floating point is not modelled. Scores are exact `real`, so the sentiment average has no rounding.
- Text.IsAlpha: `str.isalpha` is modelled on ASCII letters only. Non-ASCII letters are treated as non-alphabetic.
- The `isinstance(poem.text, list)` join in `generate_nouns` computes a value that is never used. Text is always a list of lines.
- The theme word lists are not deduplicated, because the code does not deduplicate them.
- `Poem.set_grammar` and `Poem.set_sentiment` are not separate members. They appear as field updates of the returned poem.
- Expansion.GenerateSimilar: the model calls it only with a `pos` argument, as `generate_limerick` does. Without `pos`, its ensures state only the length bound and the subsequence relation.

=== FILE: expansion.dfy ===
/** Theme expansion: related words from the embedding filtered by part of
    speech (`generate_similar`, `filter_words_by_pos`), the hard-coded
    fallback lists, and the rhyme lookup with its fallback. */
module Expansion {
  import opened Results
  import opened Text
  import opened Providers

  /** `generate_similar`'s default `n`. */
  const DefaultTopN: nat := 13

  const NounFallback: seq<string> := ["sea", "moon", "tea", "sky", "sun"]
  const VerbFallback: seq<string> := ["gleam", "seek", "reek", "made", "slayed"]
  const AdjFallback: seq<string> := ["mysterious", "colorful", "bright"]

  /** The tag of the first token spaCy finds in `word`, if any. */
  function FirstPos(word: string, tag: Tagger): Option<string> {
    if |tag(word)| == 0 then None else Some(tag(word)[0].pos)
  }

  /** `filter_words_by_pos(words, pos)`: the words whose first token is tagged `pos`. */
  function FilterWordsByPos(words: seq<string>, pos: string, tag: Tagger): (r: seq<string>)
    ensures IsSubsequence(r, words)
    ensures forall w :: w in r ==> w in words && FirstPos(w, tag) == Some(pos)
    ensures forall w :: w in words && FirstPos(w, tag) == Some(pos) ==> w in r
    ensures (forall w :: w in words ==> FirstPos(w, tag) != Some(pos)) ==> r == []
    ensures forall w :: multiset(r)[w] == if FirstPos(w, tag) == Some(pos) then multiset(words)[w] else 0
  {
    if |words| == 0 then []
    else
      var rest := FilterWordsByPos(words[1..], pos, tag);
      assert forall w :: w in words ==> w == words[0] || w in words[1..];
      assert words == [words[0]] + words[1..];
      assert multiset(words) == multiset([words[0]]) + multiset(words[1..]);
      if FirstPos(words[0], tag) == Some(pos) then [words[0]] + rest
      else
        assert |rest| > 0 ==> FirstPos(rest[0], tag) == Some(pos);
        rest
  }

  /** `most_similar(theme, topn=n)` as words: the first `n` of the ranking. */
  function MostSimilar(theme: string, n: nat, emb: Embedding): (r: seq<string>)
    ensures |r| <= n
    ensures |r| <= |emb.ranked(theme)| && r == emb.ranked(theme)[..|r|]
    ensures |r| < n ==> r == emb.ranked(theme)
  {
    var ranked := emb.ranked(theme);
    if |ranked| <= n then ranked else ranked[..n]
  }

  /** `generate_similar(theme, n, pos)`: an out-of-vocabulary theme gives
      `[theme]` unfiltered; otherwise the top-`n` similar words, filtered by
      the first-token tag when a `pos` is given. */
  function GenerateSimilar(theme: string, n: nat, pos: Option<string>, emb: Embedding, tag: Tagger): (r: seq<string>)
    ensures !emb.inVocab(theme) ==> r == [theme]
    ensures emb.inVocab(theme) ==> |r| <= n && IsSubsequence(r, MostSimilar(theme, n, emb))
    ensures emb.inVocab(theme) && pos.Some? ==>
              forall w :: w in r <==> w in MostSimilar(theme, n, emb) && FirstPos(w, tag) == pos
    ensures emb.inVocab(theme) && pos.Some? ==>
              forall w :: multiset(r)[w] == if FirstPos(w, tag) == pos then multiset(MostSimilar(theme, n, emb))[w] else 0
  {
    if emb.inVocab(theme) then
      var words := MostSimilar(theme, n, emb);
      if pos.Some? then
        var r := FilterWordsByPos(words, pos.value, tag);
        SubsequenceNotLonger(r, words);
        assert pos == Some(pos.value);
        r
      else
        assert IsSubsequence(words, words) by { SubsequenceReflexive(words); }
        words
    else [theme]
  }

  /** `if not xs: xs = fallback`. */
  function OrFallback(xs: seq<string>, fallback: seq<string>): (r: seq<string>)
    requires |fallback| > 0
    ensures |r| > 0
    ensures |xs| > 0 ==> r == xs
    ensures |xs| == 0 ==> r == fallback
  {
    if |xs| == 0 then fallback else xs
  }

  /** The related words for one part of speech after the fallback: the
      filtered similar words when there are any, the fallback list otherwise. */
  function RelatedWords(theme: string, pos: string, fallback: seq<string>, emb: Embedding, tag: Tagger): (r: seq<string>)
    requires |fallback| > 0
    ensures |r| > 0
    ensures var similar := GenerateSimilar(theme, DefaultTopN, Some(pos), emb, tag);
            (|similar| > 0 ==> r == similar) && (|similar| == 0 ==> r == fallback)
    ensures forall w :: w in r ==> w in fallback || w == theme || w in emb.ranked(theme)
  {
    var similar := GenerateSimilar(theme, DefaultTopN, Some(pos), emb, tag);
    assert forall w :: w in similar ==> w == theme || w in emb.ranked(theme) by {
      if emb.inVocab(theme) {
        var top := MostSimilar(theme, DefaultTopN, emb);
        assert forall w :: w in top ==> w in emb.ranked(theme);
      }
    }
    OrFallback(similar, fallback)
  }

  function RelatedNouns(theme: string, emb: Embedding, tag: Tagger): seq<string> {
    RelatedWords(theme, "NOUN", NounFallback, emb, tag)
  }

  function RelatedVerbs(theme: string, emb: Embedding, tag: Tagger): seq<string> {
    RelatedWords(theme, "VERB", VerbFallback, emb, tag)
  }

  function RelatedAdjectives(theme: string, emb: Embedding, tag: Tagger): seq<string> {
    RelatedWords(theme, "ADJ", AdjFallback, emb, tag)
  }

  /** An out-of-vocabulary theme is its own expansion for every part of
      speech: the list `[theme]` is not empty, so no fallback list is used. */
  lemma OutOfVocabularyTheme(theme: string, emb: Embedding, tag: Tagger)
    requires !emb.inVocab(theme)
    ensures RelatedNouns(theme, emb, tag) == [theme]
    ensures RelatedVerbs(theme, emb, tag) == [theme]
    ensures RelatedAdjectives(theme, emb, tag) == [theme]
  {
  }

  /** A known theme none of whose top-13 neighbours carries the tag gets the
      category's fallback list. */
  lemma FallbackWhenNothingQualifies(theme: string, pos: string, fallback: seq<string>, emb: Embedding, tag: Tagger)
    requires |fallback| > 0 && emb.inVocab(theme)
    requires forall w :: w in MostSimilar(theme, DefaultTopN, emb) ==> FirstPos(w, tag) != Some(pos)
    ensures RelatedWords(theme, pos, fallback, emb, tag) == fallback
  {
    var words := MostSimilar(theme, DefaultTopN, emb);
    assert FilterWordsByPos(words, pos, tag) == [];
  }

  /** `pronouncing.rhymes(word)`, or `[word]` when it finds none. */
  function RhymesFor(word: string, rhymes: Rhymer): (r: seq<string>)
    ensures |r| > 0
    ensures |rhymes(word)| == 0 ==> r == [word]
    ensures |rhymes(word)| > 0 ==> r == rhymes(word)
  {
    if |rhymes(word)| == 0 then [word] else rhymes(word)
  }
}

=== FILE: limerick.dfy ===
/** `generate_limerick()`: choose a theme, expand it, fix number and tense,
    look up rhymes and fill the fixed five-line AABBA template. */
module Limerick {
  import opened Results
  import opened Text
  import opened Providers
  import opened Poems
  import opened Morphology
  import opened Significance
  import opened Expansion
  import opened OrderedDict

  /** The random source: one draw per `random.choice` call of a run. */
  datatype Draws = Draws(
    theme: nat,
    adj1: nat, adj2: nat, adj3: nat,
    noun: nat,
    verb1: nat, verb2: nat, verb3: nat,
    rhymeA1: nat, rhymeB: nat, rhymeA2: nat)

  /** The words substituted into the template, after singularising and conjugating. */
  datatype Slots = Slots(
    theme: string,
    adj1: string, adj2: string, adj3: string,
    noun: string,
    verb1: string, verb2: string, verb3: string,
    rhymeA1: string, rhymeB: string, rhymeA2: string)

  const TitlePrefix: string := "Something about "

  /** Every slot holds a word drawn from the non-empty list the template
      promises for it. */
  ghost predicate WellFilled(s: Slots, p: Providers) {
    var adjs := RelatedAdjectives(s.theme, p.embedding, p.tag);
    var verbs := RelatedVerbs(s.theme, p.embedding, p.tag);
    && s.adj1 in adjs && s.adj2 in adjs && s.adj3 in adjs
    && (exists w :: w in RelatedNouns(s.theme, p.embedding, p.tag) && s.noun == HandlePlurality(w, false, p.inflector))
    && (exists v :: v in verbs && s.verb1 == Conjugate(v, "present", "it", p.tag))
    && (exists v :: v in verbs && s.verb2 == Conjugate(v, "past", "it", p.tag))
    && (exists v :: v in verbs && s.verb3 == Conjugate(v, "past", "it", p.tag))
    && s.rhymeA1 in RhymesFor(s.theme, p.rhymes)
    && s.rhymeA2 in RhymesFor(s.theme, p.rhymes)
    && s.rhymeB in RhymesFor(s.noun, p.rhymes)
  }

  /** The middle of `generate_limerick()`: from the theme to the slot words. */
  function FillSlots(theme: string, p: Providers, d: Draws): (s: Slots)
    ensures s.theme == theme
    ensures WellFilled(s, p)
  {
    var nouns := RelatedNouns(theme, p.embedding, p.tag);
    var verbs := RelatedVerbs(theme, p.embedding, p.tag);
    var adjs := RelatedAdjectives(theme, p.embedding, p.tag);
    var noun := HandlePlurality(Pick(nouns, d.noun), false, p.inflector);
    var rhymeB := RhymesFor(noun, p.rhymes);
    var rhymes := RhymesFor(theme, p.rhymes);
    Slots(
      theme,
      Pick(adjs, d.adj1), Pick(adjs, d.adj2), Pick(adjs, d.adj3),
      noun,
      Conjugate(Pick(verbs, d.verb1), "present", "it", p.tag),
      Conjugate(Pick(verbs, d.verb2), "past", "it", p.tag),
      Conjugate(Pick(verbs, d.verb3), "past", "it", p.tag),
      Pick(rhymes, d.rhymeA1), Pick(rhymeB, d.rhymeB), Pick(rhymes, d.rhymeA2))
  }

  /** The template and the title. Lines 2 and 5 end on a rhyme of the theme
      (A), lines 3 and 4 on the second noun and one of its rhymes (B). */
  function Render(s: Slots): (p: Poem)
    ensures p.title == TitlePrefix + s.theme
    ensures |p.text| == 5
    ensures p.text[0] == "There once was a " + s.adj1 + " " + s.theme + ","
    ensures p.text[1] == "who " + s.verb1 + " by the " + s.rhymeA1 + "."
    ensures p.text[2] == "But then came in a " + s.adj2 + " " + s.noun + "."
    ensures p.text[3] == "They " + s.verb2 + " like a " + s.adj3 + " " + s.rhymeB + "."
    ensures p.text[4] == "Finally, it " + s.verb3 + " by the " + s.rhymeA2 + "."
    ensures p.grammarScore == 0 && p.sentiment == 0.0
  {
    NewPoem(TitlePrefix + s.theme, [
      "There once was a " + s.adj1 + " " + s.theme + ",",
      "who " + s.verb1 + " by the " + s.rhymeA1 + ".",
      "But then came in a " + s.adj2 + " " + s.noun + ".",
      "They " + s.verb2 + " like a " + s.adj3 + " " + s.rhymeB + ".",
      "Finally, it " + s.verb3 + " by the " + s.rhymeA2 + "."])
  }

  /** Where the template puts the theme and its rhymes: at the end of lines 1, 2 and 5. */
  lemma RenderEndings(s: Slots)
    ensures EndsWith(Render(s).text[0], " " + s.theme + ",")
    ensures EndsWith(Render(s).text[1], " " + s.rhymeA1 + ".")
    ensures EndsWith(Render(s).text[4], " " + s.rhymeA2 + ".")
  {
    var t := Render(s).text;
    assert t[0] == ("There once was a " + s.adj1) + (" " + s.theme + ",");
    EndsWithAppend("There once was a " + s.adj1, " " + s.theme + ",");
    assert t[1] == ("who " + s.verb1 + " by the") + (" " + s.rhymeA1 + ".");
    EndsWithAppend("who " + s.verb1 + " by the", " " + s.rhymeA1 + ".");
    assert t[4] == ("Finally, it " + s.verb3 + " by the") + (" " + s.rhymeA2 + ".");
    EndsWithAppend("Finally, it " + s.verb3 + " by the", " " + s.rhymeA2 + ".");
  }

  /** The theme named by a generated title. */
  function ThemeOfTitle(title: string): Option<string> {
    if StartsWith(title, TitlePrefix) then Some(title[|TitlePrefix|..]) else None
  }

  /** Titling and reading the theme back are inverse: every theme comes back
      from its title, and a title that names a theme is that theme's title. */
  lemma TitleRoundTrip(theme: string, title: string)
    ensures ThemeOfTitle(TitlePrefix + theme) == Some(theme)
    ensures ThemeOfTitle(title) == Some(theme) ==> title == TitlePrefix + theme
  {
    StartsWithAppend(TitlePrefix, theme);
    assert (TitlePrefix + theme)[|TitlePrefix|..] == theme;
    if ThemeOfTitle(title) == Some(theme) {
      assert title == title[..|TitlePrefix|] + title[|TitlePrefix|..];
    }
  }

  /** `generate_limerick()`: fails where Python raises (a poem without a
      score row, an empty theme pool); otherwise the poem rendered from a
      theme of the pool and well-filled slots. */
  function GenerateLimerick(poems: seq<Poem>, m: ScoreMatrix, p: Providers, d: Draws): (r: Result<Poem>)
    requires WellShaped(m)
    ensures r.Ok? <==> |poems| <= |m.rows| && |CandidateThemes(poems, m).value| > 0
    ensures |m.rows| < |poems| ==> r == Err(MissingScoreRow(|m.rows|))
    ensures |poems| <= |m.rows| && |CandidateThemes(poems, m).value| == 0 ==> r == Err(EmptyThemePool)
    ensures r.Ok? ==> exists s: Slots :: s.theme in CandidateThemes(poems, m).value && WellFilled(s, p) && r.value == Render(s)
  {
    var pool :- CandidateThemes(poems, m);
    var theme :- ChooseTheme(pool, d.theme);
    var s := FillSlots(theme, p, d);
    Ok(Render(s))
  }

  /** A position of `x` in `xs`: the draw that makes `random.choice` return `x`. */
  function DrawFor(xs: seq<string>, x: string): (k: nat)
    requires x in xs
    ensures k < |xs| && xs[k] == x
    ensures Pick(xs, k) == x
  {
    FirstIndex(xs, x)
  }

  /** Draws that make `FillSlots` produce the given well-filled slots. */
  lemma SlotDraws(p: Providers, s: Slots) returns (d: Draws)
    requires WellFilled(s, p)
    ensures FillSlots(s.theme, p, d) == s
  {
    var nouns := RelatedNouns(s.theme, p.embedding, p.tag);
    var verbs := RelatedVerbs(s.theme, p.embedding, p.tag);
    var adjs := RelatedAdjectives(s.theme, p.embedding, p.tag);
    var rhymes := RhymesFor(s.theme, p.rhymes);
    var w :| w in nouns && s.noun == HandlePlurality(w, false, p.inflector);
    var v1 :| v1 in verbs && s.verb1 == Conjugate(v1, "present", "it", p.tag);
    var v2 :| v2 in verbs && s.verb2 == Conjugate(v2, "past", "it", p.tag);
    var v3 :| v3 in verbs && s.verb3 == Conjugate(v3, "past", "it", p.tag);
    d := Draws(
      0,
      DrawFor(adjs, s.adj1), DrawFor(adjs, s.adj2), DrawFor(adjs, s.adj3),
      DrawFor(nouns, w),
      DrawFor(verbs, v1), DrawFor(verbs, v2), DrawFor(verbs, v3),
      DrawFor(rhymes, s.rhymeA1), DrawFor(RhymesFor(s.noun, p.rhymes), s.rhymeB), DrawFor(rhymes, s.rhymeA2));
    assert Pick(nouns, d.noun) == w;
  }

  /** `FillSlots` never reads the theme draw. */
  lemma FillSlotsIgnoresThemeDraw(theme: string, p: Providers, d: Draws, k: nat)
    ensures FillSlots(theme, p, d.(theme := k)) == FillSlots(theme, p, d)
  {
  }

  /** Converse of `GenerateLimerick`'s last ensures: every rendering of
      well-filled slots around a pool theme is produced by some draws, so the
      random source reaches every limerick the template allows. */
  lemma EveryRenderReachable(poems: seq<Poem>, m: ScoreMatrix, p: Providers, s: Slots)
    requires WellShaped(m) && |poems| <= |m.rows|
    requires s.theme in CandidateThemes(poems, m).value
    requires WellFilled(s, p)
    ensures exists d: Draws :: GenerateLimerick(poems, m, p, d) == Ok(Render(s))
  {
    var pool := CandidateThemes(poems, m).value;
    var d0 := SlotDraws(p, s);
    var d := d0.(theme := DrawFor(pool, s.theme));
    FillSlotsIgnoresThemeDraw(s.theme, p, d0, DrawFor(pool, s.theme));
    assert ChooseTheme(pool, d.theme) == Ok(s.theme);
    assert GenerateLimerick(poems, m, p, d) == Ok(Render(s));
  }

  /** With a row for every poem, a corpus in which some title's final theme
      passes the filter always yields a limerick: the pool is not empty. */
  lemma ThemeWordMakesGenerationSucceed(poems: seq<Poem>, m: ScoreMatrix, p: Providers, d: Draws, i: nat)
    requires WellShaped(m) && |poems| <= |m.rows| && i < |poems|
    requires forall j :: i < j < |poems| ==> poems[j].title != poems[i].title
    requires IsThemeWord(ThemeOfRow(m.rows[i], m.features))
    ensures GenerateLimerick(poems, m, p, d).Ok?
  {
    PoolHasPoemTheme(poems, m, i);
  }

  /** What a generated limerick looks like from the outside: five lines, the
      title names a theme word from the corpus (a feature or `"None"`), the
      first line ends on that theme, and lines 2 and 5 end on one of its rhymes. */
  lemma GeneratedLimerickShape(poems: seq<Poem>, m: ScoreMatrix, p: Providers, d: Draws)
    requires WellShaped(m)
    ensures var r := GenerateLimerick(poems, m, p, d);
            r.Ok? ==>
              var theme := ThemeOfTitle(r.value.title);
              && |r.value.text| == 5
              && theme.Some?
              && IsThemeWord(theme.value)
              && (theme.value == "None" || theme.value in m.features)
              && EndsWith(r.value.text[0], " " + theme.value + ",")
              && (exists a :: a in RhymesFor(theme.value, p.rhymes) && EndsWith(r.value.text[1], " " + a + "."))
              && (exists a :: a in RhymesFor(theme.value, p.rhymes) && EndsWith(r.value.text[4], " " + a + "."))
  {
    var r := GenerateLimerick(poems, m, p, d);
    if r.Ok? {
      var s: Slots :| s.theme in CandidateThemes(poems, m).value && WellFilled(s, p) && r.value == Render(s);
      TitleRoundTrip(s.theme, r.value.title);
      RenderEndings(s);
      assert s.rhymeA1 in RhymesFor(s.theme, p.rhymes) && EndsWith(r.value.text[1], " " + s.rhymeA1 + ".");
      assert s.rhymeA2 in RhymesFor(s.theme, p.rhymes) && EndsWith(r.value.text[4], " " + s.rhymeA2 + ".");
    }
  }

  /** Read against the documents the vectoriser is given (one row each): a
      corpus with fewer noun-bearing lines than poems cannot produce a limerick. */
  lemma TooFewNounLinesFail(poems: seq<Poem>, m: ScoreMatrix, p: Providers, d: Draws)
    requires WellShaped(m)
    requires |m.rows| == |Documents(poems, p.tag)| < |poems|
    ensures GenerateLimerick(poems, m, p, d) == Err(MissingScoreRow(|Documents(poems, p.tag)|))
  {
  }
}

=== FILE: morphology.dfy ===
/** Verb conjugation and plurality handling (`InspiringSet.conjugate` and
    `InspiringSet.handle_plurality`). */
module Morphology {
  import opened Results
  import opened Text
  import opened Providers

  /** The three-entry irregular-verb table, keyed by lemma and then by tense:
      be (was/is), go (went/goes), make (made/makes). */
  function IrregularForm(base: string, tense: string): Option<string> {
    if base == "be" then
      if tense == "past" then Some("was") else if tense == "present" then Some("is") else None
    else if base == "go" then
      if tense == "past" then Some("went") else if tense == "present" then Some("goes") else None
    else if base == "make" then
      if tense == "past" then Some("made") else if tense == "present" then Some("makes") else None
    else None
  }

  /** `c in "aeiou"`: lower-case vowels only. */
  predicate IsVowel(c: char) {
    c in "aeiou"
  }

  /** The guard of the `y` rule: longer than one letter, ending in `y` after a
      character that is not a lower-case vowel. */
  predicate YRule(base: string) {
    EndsWith(base, "y") && |base| > 1 && !IsVowel(base[|base| - 2])
  }

  /** The past-tense suffix rules applied to a lemma outside the irregular
      table, tried in order: `y` to `ied`, then `e` takes `d`, then anything
      not already ending in `ed` takes `ed`. */
  function RegularPast(base: string): (r: string)
    ensures EndsWith(r, "d")
    ensures r == base <==> EndsWith(base, "ed")
    ensures |base| <= |r| <= |base| + 2
    ensures |base| > 0 ==> r[..|base| - 1] == base[..|base| - 1]
    ensures YRule(base) ==> r == base[..|base| - 1] + "ied"
    ensures !YRule(base) && EndsWith(base, "e") ==> r == base + "d"
    ensures !YRule(base) && !EndsWith(base, "e") && !EndsWith(base, "ed") ==> r == base + "ed"
  {
    if YRule(base) then
      base[..|base| - 1] + "ied"
    else if EndsWith(base, "e") then
      base + "d"
    else if !EndsWith(base, "ed") then
      base + "ed"
    else
      base
  }

  /** The present-tense rule applied to a lemma outside the irregular table:
      only the subject `"it"` takes an `s`. */
  function RegularPresent(base: string, subject: string): (r: string)
    ensures subject == "it" ==> EndsWith(r, "s")
    ensures subject != "it" ==> r == base
    ensures r == base || r == base + "s"
    ensures r == base + "s" <==> subject == "it" && !EndsWith(base, "s")
  {
    if subject == "it" then
      if !EndsWith(base, "s") then base + "s" else base
    else
      base
  }

  /** The lemma of the first token spaCy finds in `verb`, if any. */
  function LemmaOf(verb: string, tag: Tagger): Option<string> {
    var doc := tag(verb);
    if |doc| == 0 then None else Some(doc[0].baseForm)
  }

  /** `conjugate(verb, tense, subject)`. */
  function Conjugate(verb: string, tense: string, subject: string, tag: Tagger): (r: string)
    ensures LemmaOf(verb, tag).None? ==> r == verb
    ensures LemmaOf(verb, tag).Some? && tense == "present" && subject == "it" ==> EndsWith(r, "s")
    ensures (LemmaOf(verb, tag).Some? && tense == "past" && IrregularForm(LemmaOf(verb, tag).value, "past").None?)
            ==> EndsWith(r, "d")
    ensures (LemmaOf(verb, tag).Some? && tense == "past" && IrregularForm(LemmaOf(verb, tag).value, "past").None?)
            ==> var base := LemmaOf(verb, tag).value;
                && (YRule(base) ==> r == base[..|base| - 1] + "ied")
                && (!YRule(base) && EndsWith(base, "e") ==> r == base + "d")
                && (!YRule(base) && !EndsWith(base, "e") && !EndsWith(base, "ed") ==> r == base + "ed")
                && (EndsWith(base, "ed") ==> r == base)
    ensures LemmaOf(verb, tag).Some? && tense != "present" && tense != "past" ==> r == LemmaOf(verb, tag).value
  {
    match LemmaOf(verb, tag)
    case None => verb
    case Some(base) =>
      if IrregularForm(base, tense).Some? then
        assert EndsWith("is", "s") && EndsWith("goes", "s") && EndsWith("makes", "s");
        IrregularForm(base, tense).value
      else if tense == "present" then RegularPresent(base, subject)
      else if tense == "past" then RegularPast(base)
      else base
  }

  /** The irregular table wins over the suffix rules whatever the subject. */
  lemma ConjugateIrregular(verb: string, tense: string, subject: string, tag: Tagger)
    requires LemmaOf(verb, tag).Some?
    ensures var base := LemmaOf(verb, tag).value;
            var r := Conjugate(verb, tense, subject, tag);
            && (base == "be" && tense == "past" ==> r == "was")
            && (base == "be" && tense == "present" ==> r == "is")
            && (base == "go" && tense == "past" ==> r == "went")
            && (base == "go" && tense == "present" ==> r == "goes")
            && (base == "make" && tense == "past" ==> r == "made")
            && (base == "make" && tense == "present" ==> r == "makes")
  {
  }

  /** Present tense of a regular lemma: `"it"` gets the lemma plus `s` unless the
      lemma already ends in `s`; every other subject gets the bare lemma. */
  lemma ConjugatePresent(verb: string, subject: string, tag: Tagger)
    requires LemmaOf(verb, tag).Some? && IrregularForm(LemmaOf(verb, tag).value, "present").None?
    ensures var base := LemmaOf(verb, tag).value;
            var r := Conjugate(verb, "present", subject, tag);
            && (subject == "it" && EndsWith(base, "s") ==> r == base)
            && (subject == "it" && !EndsWith(base, "s") ==> r == base + "s")
            && (subject != "it" ==> r == base)
  {
  }

  /** Past tense of a regular lemma: the result keeps all but possibly the last
      letter of the lemma, grows by at most two letters, ends in `d`, and equals
      the lemma exactly when the lemma already ends in `ed`. Outside the `y`
      rule, a lemma ending in `e` takes `d` and any other lemma not ending in
      `ed` takes `ed`. */
  lemma ConjugatePast(verb: string, subject: string, tag: Tagger)
    requires LemmaOf(verb, tag).Some? && IrregularForm(LemmaOf(verb, tag).value, "past").None?
    ensures var base := LemmaOf(verb, tag).value;
            var r := Conjugate(verb, "past", subject, tag);
            && EndsWith(r, "d")
            && (r == base <==> EndsWith(base, "ed"))
            && |base| <= |r| <= |base| + 2
            && (|base| > 0 ==> r[..|base| - 1] == base[..|base| - 1])
            && (!YRule(base) && EndsWith(base, "e") ==> r == base + "d")
            && (!YRule(base) && !EndsWith(base, "e") && !EndsWith(base, "ed") ==> r == base + "ed")
  {
  }

  /** The `y` rule: a lemma ending in `y` after a character that is not a
      lower-case vowel loses the `y` and takes `ied`. */
  lemma ConjugatePastY(verb: string, subject: string, tag: Tagger)
    requires LemmaOf(verb, tag).Some? && IrregularForm(LemmaOf(verb, tag).value, "past").None?
    requires var base := LemmaOf(verb, tag).value;
             |base| > 1 && base[|base| - 1] == 'y' && base[|base| - 2] !in "aeiou"
    ensures var base := LemmaOf(verb, tag).value;
            Conjugate(verb, "past", subject, tag) == base[..|base| - 1] + "ied"
  {
    var base := LemmaOf(verb, tag).value;
    assert base[|base| - 1..] == "y";
  }

  /** `handle_plurality(word, is_plural)`: pluralising is delegated to the
      inflector; singularising falls back to the word itself when the inflector
      answers `False` or the empty string. */
  function HandlePlurality(word: string, isPlural: bool, inflector: Inflector): (r: string)
    ensures isPlural ==> r == inflector.plural(word)
    ensures !isPlural ==> r == word || inflector.singularNoun(word) == Some(r)
    ensures !isPlural && word != "" ==> r != ""
    ensures !isPlural && inflector.singularNoun(word).None? ==> r == word
    ensures !isPlural && inflector.singularNoun(word).Some? && inflector.singularNoun(word).value != ""
            ==> r == inflector.singularNoun(word).value
    ensures !isPlural && inflector.singularNoun(word) == Some("") ==> r == word
  {
    if isPlural then inflector.plural(word)
    else
      match inflector.singularNoun(word)
      case Some(s) => if s != "" then s else word
      case None => word
  }
}

=== FILE: ordered_dict.dfy ===
/** A Python `dict` as an association list in insertion order: assigning to a
    new key appends an entry, assigning to an existing key replaces its value
    where it stands, and `values()` lists the values in that order. */
module OrderedDict {
  import opened Results

  datatype Entry<K, V> = Entry(key: K, value: V)

  type Dict<K, V> = seq<Entry<K, V>>

  ghost predicate UniqueKeys<K, V>(d: Dict<K, V>) {
    forall i, j :: 0 <= i < j < |d| ==> d[i].key != d[j].key
  }

  /** `list(d.keys())`. */
  function Keys<K, V>(d: Dict<K, V>): (ks: seq<K>)
    ensures |ks| == |d|
    ensures forall i :: 0 <= i < |d| ==> ks[i] == d[i].key
  {
    if |d| == 0 then [] else [d[0].key] + Keys(d[1..])
  }

  /** `list(d.values())`. */
  function Values<K, V>(d: Dict<K, V>): (vs: seq<V>)
    ensures |vs| == |d|
    ensures forall i :: 0 <= i < |d| ==> vs[i] == d[i].value
  {
    if |d| == 0 then [] else [d[0].value] + Values(d[1..])
  }

  /** `d.get(k)`. */
  function Get<K(==), V>(d: Dict<K, V>, k: K): (r: Option<V>)
    ensures r.None? <==> k !in Keys(d)
    ensures r.Some? ==> r.value in Values(d)
  {
    if |d| == 0 then None
    else if d[0].key == k then Some(d[0].value)
    else Get(d[1..], k)
  }

  /** `d[k] = v`. */
  function Put<K(==), V>(d: Dict<K, V>, k: K, v: V): (d': Dict<K, V>)
    ensures Keys(d') == if k in Keys(d) then Keys(d) else Keys(d) + [k]
    ensures Get(d', k) == Some(v)
    ensures forall x :: x in Values(d') ==> x == v || x in Values(d)
  {
    if |d| == 0 then [Entry(k, v)]
    else if d[0].key == k then
      PutHere(d, k, v);
      [Entry(k, v)] + d[1..]
    else
      var tail := Put(d[1..], k, v);
      PutFurther(d, tail, k, v);
      [d[0]] + tail
  }

  /** The step of `Put` that overwrites the first entry. */
  lemma PutHere<K, V>(d: Dict<K, V>, k: K, v: V)
    requires |d| > 0 && d[0].key == k
    ensures var d' := [Entry(k, v)] + d[1..];
            && Keys(d') == Keys(d)
            && Get(d', k) == Some(v)
            && forall x :: x in Values(d') ==> x == v || x in Values(d)
  {
    KeysValuesCons(Entry(k, v), d[1..]);
    KeysValuesCons(d[0], d[1..]);
    assert d == [d[0]] + d[1..];
  }

  /** The step of `Put` that keeps the first entry and assigns in the rest. */
  lemma PutFurther<K, V>(d: Dict<K, V>, tail: Dict<K, V>, k: K, v: V)
    requires |d| > 0 && d[0].key != k
    requires Keys(tail) == if k in Keys(d[1..]) then Keys(d[1..]) else Keys(d[1..]) + [k]
    requires Get(tail, k) == Some(v)
    requires forall x :: x in Values(tail) ==> x == v || x in Values(d[1..])
    ensures var d' := [d[0]] + tail;
            && Keys(d') == (if k in Keys(d) then Keys(d) else Keys(d) + [k])
            && Get(d', k) == Some(v)
            && forall x :: x in Values(d') ==> x == v || x in Values(d)
  {
    var d' := [d[0]] + tail;
    KeysValuesCons(d[0], tail);
    KeysValuesCons(d[0], d[1..]);
    assert d == [d[0]] + d[1..];
    assert d'[1..] == tail;
  }

  lemma KeysValuesCons<K, V>(e: Entry<K, V>, d: Dict<K, V>)
    ensures Keys([e] + d) == [e.key] + Keys(d)
    ensures Values([e] + d) == [e.value] + Values(d)
  {
    assert ([e] + d)[1..] == d;
  }

  /** Assigning keeps every key in the dictionary at most once. */
  lemma {:induction false} PutKeepsKeysUnique<K, V>(d: Dict<K, V>, k: K, v: V)
    requires UniqueKeys(d)
    ensures UniqueKeys(Put(d, k, v))
  {
    if |d| > 0 {
      if d[0].key == k {
        assert Put(d, k, v) == [Entry(k, v)] + d[1..];
        assert Keys(d[1..]) == Keys(d)[1..];
        ConsUnique(Entry(k, v), d[1..]);
      } else {
        var tail := Put(d[1..], k, v);
        PutKeepsKeysUnique(d[1..], k, v);
        assert d[0].key !in Keys(d[1..]) by {
          assert forall j :: 0 <= j < |d| - 1 ==> Keys(d[1..])[j] == d[j + 1].key;
        }
        assert d[0].key !in Keys(tail);
        assert Put(d, k, v) == [d[0]] + tail;
        ConsUnique(d[0], tail);
      }
    }
  }

  lemma ConsUnique<K, V>(e: Entry<K, V>, t: Dict<K, V>)
    requires UniqueKeys(t) && e.key !in Keys(t)
    ensures UniqueKeys([e] + t)
  {
    var d := [e] + t;
    forall i, j | 0 <= i < j < |d|
      ensures d[i].key != d[j].key
    {
      if i == 0 {
        assert d[j].key == Keys(t)[j - 1];
      } else {
        assert d[i] == t[i - 1] && d[j] == t[j - 1];
      }
    }
  }

  /** Reading a key after assigning a different key gives what it gave before. */
  lemma {:induction false} GetPutOther<K, V>(d: Dict<K, V>, k: K, v: V, k': K)
    requires k' != k
    ensures Get(Put(d, k, v), k') == Get(d, k')
  {
    if |d| == 0 {
    } else if d[0].key == k {
      assert Put(d, k, v)[1..] == d[1..];
    } else if d[0].key == k' {
    } else {
      GetPutOther(d[1..], k, v, k');
      assert Put(d, k, v)[1..] == Put(d[1..], k, v);
    }
  }

  /** The dictionary left by `for e in es: d[e.key] = e.value` from `{}`. */
  function Assign<K(==), V>(es: seq<Entry<K, V>>): (d: Dict<K, V>)
    ensures forall x :: x in Values(d) ==> x in Values(es)
  {
    if |es| == 0 then []
    else
      var last := es[|es| - 1];
      assert forall x :: x in Values(es[..|es| - 1]) ==> x in Values(es) by {
        assert forall i :: 0 <= i < |es| - 1 ==> Values(es[..|es| - 1])[i] == Values(es)[i];
      }
      assert last.value == Values(es)[|es| - 1];
      Put(Assign(es[..|es| - 1]), last.key, last.value)
  }

  /** The value of the last assignment to `k`, if any. */
  function LastValue<K(==), V>(es: seq<Entry<K, V>>, k: K): (r: Option<V>)
    ensures r.None? <==> k !in Keys(es)
  {
    if |es| == 0 then None
    else if es[|es| - 1].key == k then Some(es[|es| - 1].value)
    else
      var r := LastValue(es[..|es| - 1], k);
      assert k in Keys(es) <==> k in Keys(es[..|es| - 1]) by {
        assert forall i :: 0 <= i < |es| - 1 ==> Keys(es[..|es| - 1])[i] == Keys(es)[i];
      }
      r
  }

  /** Reading a key of the built dictionary gives the value of the last
      assignment to that key. */
  lemma {:induction false} GetAssign<K, V>(es: seq<Entry<K, V>>, k: K)
    ensures Get(Assign(es), k) == LastValue(es, k)
  {
    if |es| > 0 {
      var last := es[|es| - 1];
      GetAssign(es[..|es| - 1], k);
      if last.key != k {
        GetPutOther(Assign(es[..|es| - 1]), last.key, last.value, k);
      }
    }
  }

  /** However often a key is assigned, the built dictionary holds it once. */
  lemma {:induction false} AssignKeysUnique<K, V>(es: seq<Entry<K, V>>)
    ensures UniqueKeys(Assign(es))
  {
    if |es| > 0 {
      var last := es[|es| - 1];
      AssignKeysUnique(es[..|es| - 1]);
      PutKeepsKeysUnique(Assign(es[..|es| - 1]), last.key, last.value);
    }
  }

  /** The built dictionary's keys are exactly the assigned keys. */
  lemma AssignKeys<K, V>(es: seq<Entry<K, V>>, k: K)
    ensures k in Keys(Assign(es)) <==> k in Keys(es)
  {
    GetAssign(es, k);
  }

  /** An assignment that no later assignment to the same key overrides is the
      one the dictionary keeps. */
  lemma {:induction false} LastValueAt<K, V>(es: seq<Entry<K, V>>, i: nat)
    requires i < |es|
    requires forall j :: i < j < |es| ==> es[j].key != es[i].key
    ensures LastValue(es, es[i].key) == Some(es[i].value)
  {
    if i < |es| - 1 {
      LastValueAt(es[..|es| - 1], i);
    }
  }

  /** Where `x` first occurs in `xs` (`xs.index(x)`). */
  function FirstIndex<T(==)>(xs: seq<T>, x: T): (r: nat)
    requires x in xs
    ensures r < |xs| && xs[r] == x
    ensures forall j :: 0 <= j < r ==> xs[j] != x
  {
    if xs[0] == x then 0 else 1 + FirstIndex(xs[1..], x)
  }

  lemma {:induction false} FirstIndexAppend<T>(a: seq<T>, b: seq<T>, x: T)
    requires x in a
    ensures FirstIndex(a + b, x) == FirstIndex(a, x)
  {
    var i := FirstIndex(a, x);
    var k := FirstIndex(a + b, x);
    assert (a + b)[i] == x;
    assert k <= i;
    assert a[k] == (a + b)[k];
  }

  lemma KeysSnoc<K, V>(es: seq<Entry<K, V>>)
    requires |es| > 0
    ensures Keys(es) == Keys(es[..|es| - 1]) + [es[|es| - 1].key]
  {
    var n := |es| - 1;
    var lhs := Keys(es);
    var rhs := Keys(es[..n]) + [es[n].key];
    assert |lhs| == |rhs|;
    forall i | 0 <= i < |lhs|
      ensures lhs[i] == rhs[i]
    {
      if i < n {
        assert rhs[i] == Keys(es[..n])[i] == es[..n][i].key;
      }
    }
  }

  lemma AssignSnoc<K, V>(es: seq<Entry<K, V>>)
    requires |es| > 0
    ensures var k := es[|es| - 1].key;
            var ks0 := Keys(Assign(es[..|es| - 1]));
            Keys(Assign(es)) == if k in ks0 then ks0 else ks0 + [k]
  {
  }

  /** Every key of `ks` occurs in `all`, and the keys of `ks` appear in the
      order of their first occurrence in `all`. */
  ghost predicate InFirstOrder<K>(ks: seq<K>, all: seq<K>) {
    && (forall i :: 0 <= i < |ks| ==> ks[i] in all)
    && (forall i, j :: 0 <= i < j < |ks| ==> FirstIndex(all, ks[i]) < FirstIndex(all, ks[j]))
  }

  /** Appending `k` to the history keeps the first-occurrence order, with `k`
      added at the end when it is new. */
  lemma FirstOrderSnoc<K>(ks0: seq<K>, pre: seq<K>, k: K, ks: seq<K>, all: seq<K>)
    requires InFirstOrder(ks0, pre)
    requires forall x :: x in pre ==> x in ks0
    requires ks == if k in ks0 then ks0 else ks0 + [k]
    requires all == pre + [k]
    ensures InFirstOrder(ks, all)
    ensures forall x :: x in all ==> x in ks
  {
    forall x | x in pre
      ensures FirstIndex(all, x) == FirstIndex(pre, x) < |pre|
    {
      FirstIndexAppend(pre, [k], x);
    }
    if k !in ks0 {
      assert k !in pre;
      assert FirstIndex(all, k) == |pre|;
      forall i, j | 0 <= i < j < |ks|
        ensures FirstIndex(all, ks[i]) < FirstIndex(all, ks[j])
      {
        assert ks[i] == ks0[i] && ks0[i] in pre;
        if j < |ks0| {
          assert ks[j] == ks0[j];
        }
      }
    }
  }

  /** The built dictionary's keys are the assigned keys, each once, in the
      order in which they were first assigned: Python keeps a key where its
      first assignment put it. */
  lemma {:induction false} AssignKeyOrder<K, V>(es: seq<Entry<K, V>>)
    ensures forall x :: x in Keys(es) ==> x in Keys(Assign(es))
    ensures InFirstOrder(Keys(Assign(es)), Keys(es))
  {
    if |es| > 0 {
      var n := |es| - 1;
      AssignKeyOrder(es[..n]);
      KeysSnoc(es);
      AssignSnoc(es);
      FirstOrderSnoc(Keys(Assign(es[..n])), Keys(es[..n]), es[n].key, Keys(Assign(es)), Keys(es));
    }
  }
}

=== FILE: poems.dfy ===
/** The `Poem` record: a source poem of the inspiring set or a generated limerick. */
module Poems {

  /** `title` and `text` (the lines, in reading order) are fixed at creation;
      the scorer only fills in `grammarScore` and `sentiment`. */
  datatype Poem = Poem(title: string, text: seq<string>, grammarScore: int, sentiment: real)

  /** `Poem(title, text)`: both scores start at zero. */
  function NewPoem(title: string, text: seq<string>): (p: Poem)
    ensures p.title == title && p.text == text
    ensures p.grammarScore == 0 && p.sentiment == 0.0
  {
    Poem(title, text, 0, 0.0)
  }
}

=== FILE: providers.dfy ===
/** The external collaborators of the generator, taken as uninterpreted inputs:
    the spaCy pipeline, the GloVe vectors, the `pronouncing` rhyme lookup,
    the `inflect` engine and the source of random choices. */
module Providers {
  import opened Results

  /** One spaCy token: its text, coarse part-of-speech tag and lemma (`baseForm`). */
  datatype Token = Token(text: string, pos: string, baseForm: string)

  /** `nlp(text)`: the tokens spaCy produces for a piece of text. */
  type Tagger = string -> seq<Token>

  /** The GloVe keyed vectors: vocabulary membership (`word in word_vectors`)
      and the full similarity ranking that `most_similar` truncates to `topn`. */
  datatype Embedding = Embedding(inVocab: string -> bool, ranked: string -> seq<string>)

  /** The `inflect` engine: `plural(word)` and `singular_noun(word)`, the latter
      answering `None` where the library returns `False`. */
  datatype Inflector = Inflector(plural: string -> string, singularNoun: string -> Option<string>)

  /** `pronouncing.rhymes(word)`. */
  type Rhymer = string -> seq<string>

  datatype Providers = Providers(tag: Tagger, embedding: Embedding, rhymes: Rhymer, inflector: Inflector)

  /** `random.choice(xs)` driven by a caller-supplied draw `k`: the element at
      `k` modulo the length, so every draw is in range and every index is reachable. */
  function Pick<T>(xs: seq<T>, k: nat): (r: T)
    requires |xs| > 0
    ensures r in xs
    ensures k < |xs| ==> r == xs[k]
  {
    xs[k % |xs|]
  }
}

=== FILE: results.dfy ===
/** Failure-compatible wrappers used across the generator model. */
module Results {

  /** A value that may be absent (Python's `None`, `False` or a falsy result). */
  datatype Option<+T> = None | Some(value: T)

  /** Why a generation run stops with an exception instead of producing a poem. */
  datatype GenError =
    /** The TF-IDF matrix has no row `index` for the poem at that index (IndexError). */
    | MissingScoreRow(index: nat)
    /** `random.choice` was asked to choose from an empty theme pool (IndexError). */
    | EmptyThemePool

  datatype Result<+T> = Ok(value: T) | Err(error: GenError) {
    predicate IsFailure() {
      Err?
    }

    function PropagateFailure<U>(): Result<U>
      requires Err?
    {
      Err(error)
    }

    function Extract(): T
      requires Ok?
    {
      value
    }
  }
}

=== FILE: scoring.dfy ===
/** Candidate scoring (`evaluate_grammar`, `evaluate_sentiment`): the
    LanguageTool checker and the TextBlob polarity are per-line inputs. */
module Scoring {
  import opened Poems

  /** `len(tool.check(line))`. */
  type GrammarChecker = string -> nat

  /** `TextBlob(line).sentiment.polarity`. */
  type Polarity = string -> real

  /** The error counts of the lines, added up. */
  function TotalErrors(lines: seq<string>, check: GrammarChecker): nat {
    if |lines| == 0 then 0 else TotalErrors(lines[..|lines| - 1], check) + check(lines[|lines| - 1])
  }

  /** The polarities of the lines, added up. */
  function PolaritySum(lines: seq<string>, polarity: Polarity): real {
    if |lines| == 0 then 0.0 else PolaritySum(lines[..|lines| - 1], polarity) + polarity(lines[|lines| - 1])
  }

  /** How many lines have a polarity other than zero. */
  function NonzeroCount(lines: seq<string>, polarity: Polarity): nat {
    if |lines| == 0 then 0
    else NonzeroCount(lines[..|lines| - 1], polarity) + if polarity(lines[|lines| - 1]) != 0.0 then 1 else 0
  }

  /** The sentiment the scorer promises: the polarity sum over the number of
      nonzero-polarity lines, or exactly zero when there is no such line. */
  function SentimentScore(lines: seq<string>, polarity: Polarity): real {
    var count := NonzeroCount(lines, polarity);
    if count > 0 then PolaritySum(lines, polarity) / (count as real) else 0.0
  }

  /** `evaluate_grammar(poem)`: the total error count, also stored on the poem. */
  method EvaluateGrammar(poem: Poem, check: GrammarChecker) returns (errors: nat, scored: Poem)
    ensures errors == TotalErrors(poem.text, check)
    ensures scored == poem.(grammarScore := errors)
  {
    errors := 0;
    var i := 0;
    while i < |poem.text|
      invariant i <= |poem.text|
      invariant errors == TotalErrors(poem.text[..i], check)
    {
      assert poem.text[..i + 1][..i] == poem.text[..i];
      errors := errors + check(poem.text[i]);
      i := i + 1;
    }
    assert poem.text[..i] == poem.text;
    scored := poem.(grammarScore := errors);
  }

  /** `evaluate_sentiment(poem)`: the average polarity of the nonzero lines,
      also stored on the poem. */
  method EvaluateSentiment(poem: Poem, polarity: Polarity) returns (score: real, scored: Poem)
    ensures score == SentimentScore(poem.text, polarity)
    ensures scored == poem.(sentiment := score)
  {
    var total := 0.0;
    var count := 0;
    var i := 0;
    while i < |poem.text|
      invariant i <= |poem.text|
      invariant total == PolaritySum(poem.text[..i], polarity)
      invariant count == NonzeroCount(poem.text[..i], polarity)
    {
      assert poem.text[..i + 1][..i] == poem.text[..i];
      var sentiment := polarity(poem.text[i]);
      total := total + sentiment;
      if sentiment != 0.0 {
        count := count + 1;
      }
      i := i + 1;
    }
    assert poem.text[..i] == poem.text;
    score := if count > 0 then total / (count as real) else 0.0;
    scored := poem.(sentiment := score);
  }

  /** A poem has no grammar error exactly when none of its lines has one, and
      the total is at least the count of any single line. */
  lemma {:induction false} TotalErrorsPerLine(lines: seq<string>, check: GrammarChecker)
    ensures TotalErrors(lines, check) == 0 <==> forall i :: 0 <= i < |lines| ==> check(lines[i]) == 0
    ensures forall i :: 0 <= i < |lines| ==> check(lines[i]) <= TotalErrors(lines, check)
  {
    if |lines| > 0 {
      var init := lines[..|lines| - 1];
      TotalErrorsPerLine(init, check);
      assert forall i :: 0 <= i < |lines| - 1 ==> lines[i] == init[i];
    }
  }

  /** Zero-polarity lines contribute nothing, so the sum is bounded by the
      number of nonzero lines when every polarity lies in [-1, 1]. */
  lemma {:induction false} PolaritySumBounded(lines: seq<string>, polarity: Polarity)
    requires forall i :: 0 <= i < |lines| ==> -1.0 <= polarity(lines[i]) <= 1.0
    ensures -(NonzeroCount(lines, polarity) as real) <= PolaritySum(lines, polarity) <= NonzeroCount(lines, polarity) as real
  {
    if |lines| > 0 {
      var init := lines[..|lines| - 1];
      assert forall i :: 0 <= i < |init| ==> init[i] == lines[i];
      PolaritySumBounded(init, polarity);
    }
  }

  /** When no line has a nonzero polarity the score is exactly zero (no
      division happens), and so is the polarity sum. */
  lemma {:induction false} NeutralPoemScoresZero(lines: seq<string>, polarity: Polarity)
    requires NonzeroCount(lines, polarity) == 0
    ensures PolaritySum(lines, polarity) == 0.0
    ensures SentimentScore(lines, polarity) == 0.0
  {
    if |lines| > 0 {
      NeutralPoemScoresZero(lines[..|lines| - 1], polarity);
    }
  }

  /** With every line's polarity in [-1, 1], the sentiment score is in [-1, 1]. */
  lemma SentimentInRange(lines: seq<string>, polarity: Polarity)
    requires forall i :: 0 <= i < |lines| ==> -1.0 <= polarity(lines[i]) <= 1.0
    ensures -1.0 <= SentimentScore(lines, polarity) <= 1.0
  {
    PolaritySumBounded(lines, polarity);
    var count := NonzeroCount(lines, polarity);
    if count > 0 {
      var sum := PolaritySum(lines, polarity);
      var c := count as real;
      assert -c <= sum <= c;
      DivisionBounded(sum, c);
    }
  }

  lemma DivisionBounded(sum: real, c: real)
    requires c > 0.0 && -c <= sum <= c
    ensures -1.0 <= sum / c <= 1.0
  {
    assert sum / c * c == sum;
  }
}

=== FILE: significance.dfy ===
/** Theme extraction: the noun documents built from the inspiring poems, the
    selection of one significant noun per poem from the TF-IDF scores
    (`generate_nouns`, `generate_significant_nouns`), and the filter and
    random choice that turn those nouns into a theme (`generate_limerick`). */
module Significance {
  import opened Results
  import opened Text
  import opened Providers
  import opened Poems
  import opened OrderedDict

  /** The texts of the tokens tagged `NOUN`, in order. */
  function NounTexts(tokens: seq<Token>): (r: seq<string>)
    ensures |r| <= |tokens|
    ensures forall w :: w in r ==> exists i :: 0 <= i < |tokens| && tokens[i].pos == "NOUN" && tokens[i].text == w
    ensures forall i :: 0 <= i < |tokens| && tokens[i].pos == "NOUN" ==> tokens[i].text in r
  {
    if |tokens| == 0 then []
    else
      var rest := NounTexts(tokens[1..]);
      assert forall w :: w in rest ==> exists i :: 1 <= i < |tokens| && tokens[i].pos == "NOUN" && tokens[i].text == w by {
        forall w | w in rest
          ensures exists i :: 1 <= i < |tokens| && tokens[i].pos == "NOUN" && tokens[i].text == w
        {
          var i :| 0 <= i < |tokens[1..]| && tokens[1..][i].pos == "NOUN" && tokens[1..][i].text == w;
          assert tokens[i + 1] == tokens[1..][i];
        }
      }
      assert forall i :: 1 <= i < |tokens| ==> tokens[i] == tokens[1..][i - 1];
      if tokens[0].pos == "NOUN" then [tokens[0].text] + rest else rest
  }

  /** The indices of the tokens tagged `NOUN`, in increasing order: an
      independent description of which tokens `NounTexts` keeps. */
  function NounPositions(tokens: seq<Token>): (r: seq<nat>)
    ensures forall j :: 0 <= j < |r| ==> r[j] < |tokens| && tokens[r[j]].pos == "NOUN"
    ensures forall j, k :: 0 <= j < k < |r| ==> r[j] < r[k]
    ensures forall i :: 0 <= i < |tokens| && tokens[i].pos == "NOUN" ==> i in r
  {
    if |tokens| == 0 then []
    else
      var n := |tokens| - 1;
      var front := NounPositions(tokens[..n]);
      assert forall i :: 0 <= i < n ==> tokens[i] == tokens[..n][i];
      if tokens[n].pos == "NOUN" then front + [n] else front
  }

  /** `NounTexts` keeps exactly the noun tokens, each once and in order: its
      `j`-th word is the text of the `j`-th noun token. */
  lemma {:induction false} NounTextsAtPositions(tokens: seq<Token>)
    ensures |NounTexts(tokens)| == |NounPositions(tokens)|
    ensures forall j :: 0 <= j < |NounPositions(tokens)| ==>
              NounTexts(tokens)[j] == tokens[NounPositions(tokens)[j]].text
  {
    if |tokens| > 0 {
      var n := |tokens| - 1;
      var prefix := tokens[..n];
      NounTextsAtPositions(prefix);
      assert tokens == prefix + [tokens[n]];
      NounTextsAppend(prefix, [tokens[n]]);
      assert NounTexts([tokens[n]]) == if tokens[n].pos == "NOUN" then [tokens[n].text] else [] by {
        assert [tokens[n]][1..] == [];
      }
      var pos := NounPositions(tokens);
      var texts := NounTexts(tokens);
      forall j | 0 <= j < |pos|
        ensures texts[j] == tokens[pos[j]].text
      {
        if j < |NounPositions(prefix)| {
          assert pos[j] == NounPositions(prefix)[j];
          assert texts[j] == NounTexts(prefix)[j];
          assert tokens[pos[j]] == prefix[pos[j]];
        }
      }
    }
  }

  /** The noun lists of the lines of one poem, skipping lines without nouns. */
  function LineNouns(lines: seq<string>, tag: Tagger): (r: seq<seq<string>>)
    ensures |r| <= |lines|
    ensures forall i :: 0 <= i < |r| ==> |r[i]| > 0
    ensures |r| == |NounLines(lines, tag)|
    ensures forall i :: 0 <= i < |r| ==> r[i] == NounTexts(tag(NounLines(lines, tag)[i]))
  {
    if |lines| == 0 then []
    else
      var first := NounTexts(tag(lines[0]));
      var rest := LineNouns(lines[1..], tag);
      var r := (if |first| > 0 then [first] else []) + rest;
      assert forall i :: 0 <= i < |rest| ==> r[i + |r| - |rest|] == rest[i];
      r
  }

  /** A line with at least one token tagged `NOUN`. */
  predicate HasNouns(line: string, tag: Tagger) {
    |NounTexts(tag(line))| > 0
  }

  /** The lines that carry a noun, in reading order. */
  function NounLines(lines: seq<string>, tag: Tagger): (r: seq<string>)
    ensures |r| <= |lines|
    ensures forall l :: l in r <==> l in lines && HasNouns(l, tag)
  {
    if |lines| == 0 then []
    else
      assert lines == [lines[0]] + lines[1..];
      (if HasNouns(lines[0], tag) then [lines[0]] else []) + NounLines(lines[1..], tag)
  }

  /** `NounLines` keeps the order of the lines. */
  lemma {:induction false} NounLinesKeepOrder(lines: seq<string>, tag: Tagger)
    ensures IsSubsequence(NounLines(lines, tag), lines)
  {
    if |lines| > 0 {
      var rest := NounLines(lines[1..], tag);
      NounLinesKeepOrder(lines[1..], tag);
      if HasNouns(lines[0], tag) {
        assert NounLines(lines, tag) == [lines[0]] + rest;
        assert ([lines[0]] + rest)[1..] == rest;
      } else {
        assert NounLines(lines, tag) == rest;
        if |rest| > 0 {
          assert rest[0] in rest && HasNouns(rest[0], tag);
          assert rest[0] != lines[0];
        }
      }
    }
  }

  /** A repeated noun-bearing line (a refrain) is kept as often as it occurs,
      and a line without nouns never. */
  lemma {:induction false} NounLinesKeepRepeats(lines: seq<string>, tag: Tagger)
    ensures forall l :: multiset(NounLines(lines, tag))[l] == if HasNouns(l, tag) then multiset(lines)[l] else 0
  {
    if |lines| > 0 {
      NounLinesKeepRepeats(lines[1..], tag);
      assert lines == [lines[0]] + lines[1..];
      assert multiset(lines) == multiset([lines[0]]) + multiset(lines[1..]);
    }
  }

  lemma {:induction false} NounLinesAppend(a: seq<string>, b: seq<string>, tag: Tagger)
    ensures NounLines(a + b, tag) == NounLines(a, tag) + NounLines(b, tag)
  {
    if |a| == 0 {
      assert a + b == b;
    } else {
      assert (a + b)[1..] == a[1..] + b;
      NounLinesAppend(a[1..], b, tag);
    }
  }

  /** Every line of the corpus, in reading order. */
  function AllLines(poems: seq<Poem>): (r: seq<string>)
    ensures |r| == TotalLines(poems)
  {
    if |poems| == 0 then [] else poems[0].text + AllLines(poems[1..])
  }

  function TotalLines(poems: seq<Poem>): nat {
    if |poems| == 0 then 0 else |poems[0].text| + TotalLines(poems[1..])
  }

  /** `generate_nouns()`: one non-empty noun list per noun-bearing LINE of the
      corpus (not one per poem), in reading order. */
  function GenerateNouns(poems: seq<Poem>, tag: Tagger): (r: seq<seq<string>>)
    ensures |r| <= TotalLines(poems)
    ensures forall i :: 0 <= i < |r| ==> |r[i]| > 0
    ensures |r| == |NounLines(AllLines(poems), tag)|
    ensures forall i :: 0 <= i < |r| ==> r[i] == NounTexts(tag(NounLines(AllLines(poems), tag)[i]))
  {
    if |poems| == 0 then []
    else
      var head := LineNouns(poems[0].text, tag);
      var rest := GenerateNouns(poems[1..], tag);
      NounLinesAppend(poems[0].text, AllLines(poems[1..]), tag);
      assert forall i :: 0 <= i < |rest| ==> (head + rest)[|head| + i] == rest[i];
      head + rest
  }

  /** The documents given to the TF-IDF vectoriser: each noun list joined with
      spaces, so document `i` holds the nouns of the `i`-th noun-bearing line. */
  function Documents(poems: seq<Poem>, tag: Tagger): (r: seq<string>)
    ensures |r| == |NounLines(AllLines(poems), tag)|
    ensures forall i :: 0 <= i < |r| ==> r[i] == JoinSpace(NounTexts(tag(NounLines(AllLines(poems), tag)[i])))
  {
    var nouns := GenerateNouns(poems, tag);
    seq(|nouns|, i requires 0 <= i < |nouns| => JoinSpace(nouns[i]))
  }

  function Flatten(xss: seq<seq<string>>): seq<string> {
    if |xss| == 0 then [] else xss[0] + Flatten(xss[1..])
  }

  /** Every token of the given lines, in reading order. */
  function LineTokens(lines: seq<string>, tag: Tagger): seq<Token> {
    if |lines| == 0 then [] else tag(lines[0]) + LineTokens(lines[1..], tag)
  }

  /** Every token of the corpus, in reading order. */
  function CorpusTokens(poems: seq<Poem>, tag: Tagger): seq<Token> {
    if |poems| == 0 then [] else LineTokens(poems[0].text, tag) + CorpusTokens(poems[1..], tag)
  }

  lemma {:induction false} NounTextsAppend(a: seq<Token>, b: seq<Token>)
    ensures NounTexts(a + b) == NounTexts(a) + NounTexts(b)
  {
    if |a| == 0 {
      assert a + b == b;
    } else {
      assert (a + b)[1..] == a[1..] + b;
      NounTextsAppend(a[1..], b);
    }
  }

  lemma {:induction false} FlattenAppend(x: seq<seq<string>>, y: seq<seq<string>>)
    ensures Flatten(x + y) == Flatten(x) + Flatten(y)
  {
    if |x| == 0 {
      assert x + y == y;
    } else {
      assert (x + y)[1..] == x[1..] + y;
      FlattenAppend(x[1..], y);
    }
  }

  lemma {:induction false} LineNounsKeepAllNouns(lines: seq<string>, tag: Tagger)
    ensures Flatten(LineNouns(lines, tag)) == NounTexts(LineTokens(lines, tag))
  {
    if |lines| > 0 {
      var first := NounTexts(tag(lines[0]));
      LineNounsKeepAllNouns(lines[1..], tag);
      FlattenAppend(if |first| > 0 then [first] else [], LineNouns(lines[1..], tag));
      NounTextsAppend(tag(lines[0]), LineTokens(lines[1..], tag));
      if |first| > 0 {
        assert Flatten([first]) == first + Flatten([]);
      }
    }
  }

  /** Splitting the corpus into per-line noun lists loses no noun, adds none
      and keeps their order: concatenated, the lists are exactly the nouns of
      the whole corpus. */
  lemma {:induction false} GenerateNounsKeepAllNouns(poems: seq<Poem>, tag: Tagger)
    ensures Flatten(GenerateNouns(poems, tag)) == NounTexts(CorpusTokens(poems, tag))
  {
    if |poems| > 0 {
      GenerateNounsKeepAllNouns(poems[1..], tag);
      LineNounsKeepAllNouns(poems[0].text, tag);
      FlattenAppend(LineNouns(poems[0].text, tag), GenerateNouns(poems[1..], tag));
      NounTextsAppend(LineTokens(poems[0].text, tag), CorpusTokens(poems[1..], tag));
    }
  }

  /** The tagger of the two-poem example below. */
  function ExampleTag(s: string): seq<Token> {
    if s == "the cat" then [Token("the", "DET", "the"), Token("cat", "NOUN", "cat")]
    else if s == "the mat" then [Token("the", "DET", "the"), Token("mat", "NOUN", "mat")]
    else if s == "a dog" then [Token("a", "DET", "a"), Token("dog", "NOUN", "dog")]
    else []
  }

  lemma ExampleNouns()
    ensures NounTexts(ExampleTag("the cat")) == ["cat"]
    ensures NounTexts(ExampleTag("the mat")) == ["mat"]
    ensures NounTexts(ExampleTag("a dog")) == ["dog"]
  {
    assert NounTexts(ExampleTag("the cat")) == NounTexts([Token("cat", "NOUN", "cat")]);
    assert NounTexts(ExampleTag("the mat")) == NounTexts([Token("mat", "NOUN", "mat")]);
    assert NounTexts(ExampleTag("a dog")) == NounTexts([Token("dog", "NOUN", "dog")]);
  }

  lemma ExampleAllLines(a: Poem, b: Poem)
    requires a == NewPoem("A", ["the cat", "the mat"]) && b == NewPoem("B", ["a dog"])
    ensures AllLines([a, b]) == ["the cat", "the mat", "a dog"]
  {
    assert [a, b][1..] == [b];
    assert AllLines([b]) == ["a dog"] + AllLines([]);
  }

  lemma ExampleNounLinesLast()
    ensures NounLines(["a dog"], ExampleTag) == ["a dog"]
  {
    ExampleNouns();
    assert ["a dog"][1..] == [];
  }

  lemma ExampleNounLinesTail()
    ensures NounLines(["the mat", "a dog"], ExampleTag) == ["the mat", "a dog"]
  {
    ExampleNouns();
    ExampleNounLinesLast();
    assert ["the mat", "a dog"][1..] == ["a dog"];
  }

  lemma ExampleNounLines()
    ensures NounLines(["the cat", "the mat", "a dog"], ExampleTag) == ["the cat", "the mat", "a dog"]
  {
    ExampleNouns();
    ExampleNounLinesTail();
    assert ["the cat", "the mat", "a dog"][1..] == ["the mat", "a dog"];
  }

  lemma ExampleJoined(docs: seq<string>)
    requires |docs| == 3
    requires forall i :: 0 <= i < 3 ==>
               docs[i] == JoinSpace(NounTexts(ExampleTag(["the cat", "the mat", "a dog"][i])))
    ensures docs == ["cat", "mat", "dog"]
  {
    ExampleNouns();
    assert docs[0] == JoinSpace(NounTexts(ExampleTag("the cat")));
    assert docs[1] == JoinSpace(NounTexts(ExampleTag("the mat")));
    assert docs[2] == JoinSpace(NounTexts(ExampleTag("a dog")));
  }

  /** A two-poem corpus whose first poem has two noun-bearing lines yields three
      documents, so the score row read for the second poem (row 1) is the
      document of the first poem's second line. */
  lemma DocumentsArePerLine(a: Poem, b: Poem)
    requires a == NewPoem("A", ["the cat", "the mat"]) && b == NewPoem("B", ["a dog"])
    ensures Documents([a, b], ExampleTag) == ["cat", "mat", "dog"]
  {
    var docs := Documents([a, b], ExampleTag);
    var nl := NounLines(AllLines([a, b]), ExampleTag);
    assert nl == ["the cat", "the mat", "a dog"] by {
      ExampleAllLines(a, b);
      ExampleNounLines();
    }
    ExampleJoined(docs);
  }

  /** The TF-IDF output taken as given: one score row per document and the
      vocabulary (`get_feature_names_out()`). */
  datatype ScoreMatrix = ScoreMatrix(rows: seq<seq<real>>, features: seq<string>)

  /** Every row has one score per feature. */
  predicate WellShaped(m: ScoreMatrix) {
    forall i :: 0 <= i < |m.rows| ==> |m.rows[i]| == |m.features|
  }

  /** `not np.any(scores)`. */
  predicate AllZero(row: seq<real>) {
    forall j :: 0 <= j < |row| ==> row[j] == 0.0
  }

  /** `k` is where `scores.argmax()` lands: a maximum, and the first one. */
  predicate IsFirstMax(row: seq<real>, k: int) {
    && 0 <= k < |row|
    && (forall j :: 0 <= j < |row| ==> row[j] <= row[k])
    && (forall j :: 0 <= j < k ==> row[j] < row[k])
  }

  lemma FirstMaxUnique(row: seq<real>, a: int, b: int)
    requires IsFirstMax(row, a) && IsFirstMax(row, b)
    ensures a == b
  {
    assert row[a] <= row[b];
    assert row[b] <= row[a];
  }

  /** `scores.argmax()`. */
  function FirstMax(row: seq<real>): (k: nat)
    requires |row| > 0
    ensures IsFirstMax(row, k)
  {
    if |row| == 1 then 0
    else
      var k := FirstMax(row[..|row| - 1]);
      if row[|row| - 1] > row[k] then |row| - 1 else k
  }

  /** The significant noun read from one score row: the feature at the first
      maximum, or the sentinel `"None"` when every score is zero. */
  function ThemeOfRow(row: seq<real>, features: seq<string>): (r: string)
    requires |row| == |features|
    ensures AllZero(row) ==> r == "None"
    ensures !AllZero(row) ==> r in features
    ensures !AllZero(row) ==> forall k :: IsFirstMax(row, k) ==> r == features[k]
  {
    if AllZero(row) then "None"
    else
      var k := FirstMax(row);
      assert forall k' :: IsFirstMax(row, k') ==> k' == k by {
        forall k' | IsFirstMax(row, k') ensures k' == k {
          FirstMaxUnique(row, k, k');
        }
      }
      features[k]
  }

  /** With a vocabulary that does not contain `"None"` (the vectoriser
      lower-cases every feature), a poem gets `"None"` exactly when its score
      row is all zero. */
  lemma ThemeIsNoneIffAllZero(row: seq<real>, features: seq<string>)
    requires |row| == |features| && "None" !in features
    ensures ThemeOfRow(row, features) == "None" <==> AllZero(row)
  {
  }

  /** The assignments `significant_nouns[poem.title] = theme_noun` the loop
      performs, in order, when every poem has a score row. */
  function PoemThemes(poems: seq<Poem>, m: ScoreMatrix): (es: seq<Entry<string, string>>)
    requires WellShaped(m) && |poems| <= |m.rows|
    ensures |es| == |poems|
    ensures forall i :: 0 <= i < |poems| ==> es[i].key == poems[i].title
    ensures forall i :: 0 <= i < |poems| ==> es[i].value == ThemeOfRow(m.rows[i], m.features)
  {
    seq(|poems|, i requires 0 <= i < |poems| => Entry(poems[i].title, ThemeOfRow(m.rows[i], m.features)))
  }

  /** `generate_significant_nouns()`: poem `i` reads score row `i`; the loop
      raises at the first poem without a row. */
  function SignificantNouns(poems: seq<Poem>, m: ScoreMatrix): (r: Result<Dict<string, string>>)
    requires WellShaped(m)
    ensures r.Ok? <==> |poems| <= |m.rows|
    ensures r.Err? ==> r.error == MissingScoreRow(|m.rows|)
    ensures r.Ok? ==> forall v :: v in Values(r.value) ==> v == "None" || v in m.features
  {
    if |m.rows| < |poems| then Err(MissingScoreRow(|m.rows|))
    else
      var es := PoemThemes(poems, m);
      assert forall v :: v in Values(es) ==> v == "None" || v in m.features;
      Ok(Assign(es))
  }

  /** The theme recorded for the title of poem `i`, when no later poem has the
      same title (a later duplicate overwrites an earlier one), comes from row
      `i`: `"None"` if that row is all zero, else the feature at its first
      maximum. */
  lemma SignificantNounOfPoem(poems: seq<Poem>, m: ScoreMatrix, i: nat)
    requires WellShaped(m) && |poems| <= |m.rows| && i < |poems|
    requires forall j :: i < j < |poems| ==> poems[j].title != poems[i].title
    ensures SignificantNouns(poems, m).Ok?
    ensures var r := Get(SignificantNouns(poems, m).value, poems[i].title);
            && r.Some?
            && (AllZero(m.rows[i]) ==> r.value == "None")
            && (!AllZero(m.rows[i]) ==> forall k :: IsFirstMax(m.rows[i], k) ==> r.value == m.features[k])
  {
    var es := PoemThemes(poems, m);
    GetAssign(es, poems[i].title);
    LastValueAt(es, i);
  }

  /** The keys of the dictionary are exactly the poem titles. */
  lemma SignificantNounsKeys(poems: seq<Poem>, m: ScoreMatrix, t: string)
    requires WellShaped(m) && |poems| <= |m.rows|
    ensures t in Keys(SignificantNouns(poems, m).value) <==> exists i :: 0 <= i < |poems| && poems[i].title == t
  {
    var es := PoemThemes(poems, m);
    AssignKeys(es, t);
    assert forall i :: 0 <= i < |poems| ==> Keys(es)[i] == poems[i].title;
  }

  /** The filter applied before the theme is chosen: a single token, alphabetic. */
  predicate IsThemeWord(w: string) {
    ' ' !in w && IsAlpha(w)
  }

  /** The sentinel survives the filter. */
  lemma NoneIsThemeWord()
    ensures IsThemeWord("None")
  {
  }

  /** `[word for word in words if " " not in word and word.isalpha()]`. */
  function ThemePool(words: seq<string>): (pool: seq<string>)
    ensures |pool| <= |words|
    ensures forall w :: w in pool ==> w in words && IsThemeWord(w)
    ensures forall w :: w in words && IsThemeWord(w) ==> w in pool
    ensures IsSubsequence(pool, words)
    ensures forall w :: multiset(pool)[w] == if IsThemeWord(w) then multiset(words)[w] else 0
  {
    if |words| == 0 then []
    else
      var rest := ThemePool(words[1..]);
      assert forall w :: w in words ==> w == words[0] || w in words[1..];
      assert words == [words[0]] + words[1..];
      assert multiset(words) == multiset([words[0]]) + multiset(words[1..]);
      if IsThemeWord(words[0]) then
        assert ([words[0]] + rest)[1..] == rest;
        [words[0]] + rest
      else
        assert |rest| > 0 ==> rest[0] in rest && IsThemeWord(rest[0]) && rest[0] != words[0];
        rest
  }

  /** The theme pool of a corpus: the filtered values of the significant-noun
      dictionary, in insertion order. */
  function CandidateThemes(poems: seq<Poem>, m: ScoreMatrix): (r: Result<seq<string>>)
    requires WellShaped(m)
    ensures r.Ok? <==> |poems| <= |m.rows|
    ensures r.Ok? ==> forall w :: w in r.value ==> IsThemeWord(w) && (w == "None" || w in m.features)
  {
    var d :- SignificantNouns(poems, m);
    Ok(ThemePool(Values(d)))
  }

  /** Completeness of the pool: the theme kept for a title (that of the last
      poem with that title) is in the pool whenever it passes the filter. */
  lemma PoolHasPoemTheme(poems: seq<Poem>, m: ScoreMatrix, i: nat)
    requires WellShaped(m) && |poems| <= |m.rows| && i < |poems|
    requires forall j :: i < j < |poems| ==> poems[j].title != poems[i].title
    requires IsThemeWord(ThemeOfRow(m.rows[i], m.features))
    ensures CandidateThemes(poems, m).Ok?
    ensures ThemeOfRow(m.rows[i], m.features) in CandidateThemes(poems, m).value
  {
    SignificantNounOfPoem(poems, m, i);
    var d := SignificantNouns(poems, m).value;
    var theme := ThemeOfRow(m.rows[i], m.features);
    if !AllZero(m.rows[i]) {
      var k := FirstMax(m.rows[i]);
    }
    assert Get(d, poems[i].title) == Some(theme);
    assert theme in Values(d);
  }

  /** `random.choice(significant_nouns)`: fails on an empty pool; a draw
      below the pool's length selects that position, so every pool entry can
      be chosen. */
  function ChooseTheme(pool: seq<string>, k: nat): (r: Result<string>)
    ensures r.Ok? <==> |pool| > 0
    ensures r.Err? ==> r.error == EmptyThemePool
    ensures r.Ok? ==> r.value in pool
    ensures k < |pool| ==> r == Ok(pool[k])
  {
    if |pool| == 0 then Err(EmptyThemePool) else Ok(Pick(pool, k))
  }
}

=== FILE: text.dfy ===
/** String predicates standing in for the Python `str` methods the generator uses. */
module Text {

  predicate StartsWith(s: string, prefix: string) {
    |prefix| <= |s| && s[..|prefix|] == prefix
  }

  /** Python's `s.endswith(suffix)`. */
  predicate EndsWith(s: string, suffix: string) {
    |suffix| <= |s| && s[|s| - |suffix|..] == suffix
  }

  /** An alphabetic character (ASCII letters only). */
  predicate IsLetter(c: char) {
    ('a' <= c <= 'z') || ('A' <= c <= 'Z')
  }

  /** Python's `s.isalpha()`: at least one character and every character a letter. */
  predicate IsAlpha(s: string) {
    |s| > 0 && forall i :: 0 <= i < |s| ==> IsLetter(s[i])
  }

  /** Python's `" ".join(words)`. */
  function JoinSpace(words: seq<string>): string {
    if |words| == 0 then ""
    else if |words| == 1 then words[0]
    else words[0] + " " + JoinSpace(words[1..])
  }

  lemma EndsWithAppend(prefix: string, suffix: string)
    ensures EndsWith(prefix + suffix, suffix)
  {
    assert (prefix + suffix)[|prefix|..] == suffix;
  }

  lemma StartsWithAppend(prefix: string, rest: string)
    ensures StartsWith(prefix + rest, prefix)
  {
    assert (prefix + rest)[..|prefix|] == prefix;
  }

  /** An alphabetic string never contains a space, so the theme filter's
      `" " not in word` test is implied by its `word.isalpha()` test. */
  lemma AlphaHasNoSpace(s: string)
    ensures IsAlpha(s) ==> ' ' !in s
  {
  }

  /** `a` is `b` with some elements left out, order kept. */
  predicate IsSubsequence<T(==)>(a: seq<T>, b: seq<T>) {
    if |a| == 0 then true
    else if |b| == 0 then false
    else if a[0] == b[0] then IsSubsequence(a[1..], b[1..])
    else IsSubsequence(a, b[1..])
  }

  lemma {:induction false} SubsequenceNotLonger<T>(a: seq<T>, b: seq<T>)
    requires IsSubsequence(a, b)
    ensures |a| <= |b|
  {
    if |a| > 0 {
      if a[0] == b[0] {
        SubsequenceNotLonger(a[1..], b[1..]);
      } else {
        SubsequenceNotLonger(a, b[1..]);
      }
    }
  }

  lemma {:induction false} SubsequenceReflexive<T>(a: seq<T>)
    ensures IsSubsequence(a, a)
  {
    if |a| > 0 {
      SubsequenceReflexive(a[1..]);
    }
  }
}
